=== FILE: README.md ===
# Goose providers and token tracker, modelled in Dafny

This project models four deterministic pieces of the goose agent's
provider layer and states their properties as Dafny contracts and lemmas.

- **Token tracker** (`TokenTracker`). A session accumulates token usage and
  may be told its model's context limit. It warns once when usage reaches 90%
  of the limit and once when it reaches 80%. Each Rust method becomes a
  function from the tracker before to the tracker after; `Run` replays a
  whole session.
- **Anthropic provider** (`Anthropic`):
  - how `post` sorts a reply into the body or one `ProviderError` kind;
  - which headers `complete` and `stream` send;
  - the `"stream": true` payload;
  - how the decoded stream stops at the first bad frame;
  - the filter-and-sort of the model listing.
- **Groq provider** (`Groq`):
  - its own status-to-error table;
  - the empty-usage default in `complete`;
  - the model listing, which checks for an embedded `error` object first.
- **Ollama provider** (`Ollama`):
  - the base URL built from the configured host (scheme and default port 11434);
  - the rule that sends no tools when the session mode is `chat`.

Shared pieces:

- `Json` is serde_json's `Value`.
- `Base` holds the status code, `Usage`, `ProviderUsage` and the closed
  `ProviderError` taxonomy.
- `Strings` holds the prefix and suffix tests, lower-casing, substring search
  and decimal rendering.
- `Sorting` is the string order `sort` uses, with a sort proved correct and
  unique.
- `Listing` is the shared filter-then-sort of the model listings.

HTTP, configuration and environment reads are parameters:

- the status and the parsed body of a reply;
- the API key, the model name and the thinking toggle;
- the configured Ollama host and the `GOOSE_MODE` value;
- the functions for anything defined in files outside this model:
  `create_request`, `response_to_message`, `get_usage`, `get_model`,
  `handle_response_openai_compat`, `Url::parse` and the transport.

An error keeps its kind and the data its message is formatted from
(`Base.Detail`), not the formatted string.

### Behaviour worth knowing

- **Repeat warnings.** `check_warning` tests the 90% threshold first. If usage
  jumps straight past 90%, the first call gives the 90% warning but leaves the
  80% flag unset, so the second call gives the 80% warning
  (`TokenTracker.JumpPastNinety`).
- **No-limit status.** When the usage is known but the limit is not, the
  status reads "Token usage: N (no limit available)".
- **Duplicate model ids.** Neither model listing removes duplicates: an id
  carried by several entries is returned that many times
  (`Anthropic.RepeatedIdKept`).
- **Groq 400 replies.** Groq never reads a 400 body: a 400 is a plain request
  failure, and only 413 means context length.

## Model

| member | source | states |
|---|---|---|
| TokenTracker.New | crates/goose/src/agents/token_tracker.rs:21-28 | a new tracker has no usage, no context limit and neither warning flag set |
| TokenTracker.UpdateUsage | crates/goose/src/agents/token_tracker.rs:30-32 | adds the report to the usage; the limit and both flags are unchanged |
| Base.Add | crates/goose/src/agents/token_tracker.rs:31 | a count of the sum is unknown iff it is unknown in both operands; a known total is the sum of the known totals, an unknown one counting as zero |
| Base.AddCommutes | crates/goose/src/agents/token_tracker.rs:31 | adding usages does not depend on their order |
| Base.AddAssociates | crates/goose/src/agents/token_tracker.rs:31 | adding usages does not depend on their grouping, so a running total equals the total of all reports |
| TokenTracker.UpdatesAccumulate | crates/goose/src/agents/token_tracker.rs:30-32 | reports fed in order add up to their field-wise total, and leave the limit unset and the flags clear |
| Base.TotalFieldwise | crates/goose/src/agents/token_tracker.rs:31 | an accumulated count is unknown iff every report left it unknown; otherwise it is the sum of the known values |
| TokenTracker.SetContextLimit | crates/goose/src/agents/token_tracker.rs:34-36 | records the limit; usage and flags are unchanged |
| TokenTracker.Percent | crates/goose/src/agents/token_tracker.rs:40 | the percentage is the exact ratio for a positive limit; a zero limit gives +infinity for positive usage, -infinity for negative usage and NaN for zero usage |
| TokenTracker.UsagePercentage | crates/goose/src/agents/token_tracker.rs:38-43 | the percentage is known iff both the used tokens and the limit are known |
| TokenTracker.AtLeastMeansReached | crates/goose/src/agents/token_tracker.rs:48-55 | the percentage threshold test agrees with the direct comparison of used tokens and limit |
| TokenTracker.TruncatedPercent | crates/goose/src/agents/token_tracker.rs:53 | the displayed percentage lies within i32; it is i32::MAX exactly when the ratio is at least i32::MAX and i32::MIN exactly when it is at most i32::MIN, and otherwise the quotient truncated toward zero; +infinity becomes i32::MAX, -infinity i32::MIN and NaN 0 |
| TokenTracker.CheckWarning | crates/goose/src/agents/token_tracker.rs:45-65 | the 90% warning fires iff 90% is reached and its flag is unset; the 80% warning fires iff the 90% one does not, 80% is reached and its flag is unset; each sets only its own flag; nothing changes when nothing fires, including when usage or limit is unknown |
| TokenTracker.MessagesDistinguishable | crates/goose/src/agents/token_tracker.rs:51-60 | only the 90% message begins with "WARNING", so the two warnings cannot be confused |
| TokenTracker.Message | crates/goose/src/agents/token_tracker.rs:51-60 | the 90% text is "WARNING: Approaching context limit! Used U of L tokens (P%)" and the 80% text "Context usage at P% (U of L tokens)", with U, L and P the decimal renderings of the used count, the limit and the truncated percentage |
| TokenTracker.JumpPastNinety | crates/goose/src/agents/token_tracker.rs:48-61 | with both flags clear and 90% reached, the first check gives the 90% warning, the second the 80% warning, the third nothing |
| TokenTracker.EachWarningFiresOnce | crates/goose/src/agents/token_tracker.rs:45-65 | without a reset, each warning fires at most once per session, never if its flag was already set, and a flag ends set exactly when it was set or its warning fired |
| TokenTracker.FlagsNeverCleared | crates/goose/src/agents/token_tracker.rs:45-65 | no operation other than reset clears a warning flag |
| TokenTracker.WorkedSession | crates/goose/src/agents/token_tracker.rs:45-65 | limit 1000 and usage 850 give the 80% warning once; at 950 the 90% warning follows |
| TokenTracker.TokenCounts | crates/goose/src/agents/token_tracker.rs:67-72 | the (used, limit) pair is known iff both parts are |
| TokenTracker.Status | crates/goose/src/agents/token_tracker.rs:74-85 | renders "Token usage: U / L (P%)" iff both are known, "Token usage: U (no limit available)" iff only usage is known, and "Token usage: unavailable" iff usage is unknown, with U, L and P the decimal renderings of the used count, the limit and the truncated percentage |
| TokenTracker.Reset | crates/goose/src/agents/token_tracker.rs:87-91 | usage and both flags are cleared and the context limit is kept |
| TokenTracker.ResetIsNewWithLimit | crates/goose/src/agents/token_tracker.rs:87-91 | a reset tracker equals a new tracker that has been given the old limit |
| Strings.NatToStringRoundTrip | crates/goose/src/agents/token_tracker.rs:51-53 | the decimal rendering of a non-negative count, as `Message` uses for the limit and for non-negative used counts and percentages, reads back as the same number |
| Anthropic.BadRequestMessage | crates/goose/src/providers/anthropic.rs:98-102 | the 400 message is `error.message` when that is a string, and "Unknown error" when the body, `error` or a string `message` is missing |
| Anthropic.Classify | crates/goose/src/providers/anthropic.rs:87-124 | 200 with a body gives the body; 200 without one gives RequestFailed; 401/403 give Authentication whatever the body; a 400 whose message mentions "too long"/"too many" in any case gives ContextLengthExceeded with that message; other 400s give RequestFailed with the message; 429 gives RateLimitExceeded; 500/503 give ServerError; every other status gives RequestFailed |
| Anthropic.ContextLengthOnlyFromBadRequest | crates/goose/src/providers/anthropic.rs:97-105 | a context-length error only comes from a 400 whose string `error.message` contains a needle (by the reference meaning of containment) and carries it unchanged |
| Anthropic.KindIgnoresBody | crates/goose/src/providers/anthropic.rs:91-123 | for statuses other than 200 and 400, the outcome is an error whose kind does not depend on the body |
| Anthropic.PromptTooLongSample | crates/goose/src/providers/anthropic.rs:97-105 | a 400 reporting "Prompt is too long" is a context-length error |
| Anthropic.UnrelatedBadRequestSample | crates/goose/src/providers/anthropic.rs:97-111 | a 400 reporting an unrelated message is a request failure carrying it |
| Strings.Contains | crates/goose/src/providers/anthropic.rs:103 | the substring scan is true iff the needle occurs at some position |
| Strings.Lower | crates/goose/src/providers/anthropic.rs:103 | lower-casing keeps the length and lower-cases each character on its own (ASCII letters only) |
| Anthropic.Headers | crates/goose/src/providers/anthropic.rs:178-194 | `x-api-key` and `anthropic-version` are always set; `anthropic-beta` is present iff the model starts with `claude-3-7-sonnet-`, and its value is then always the token-efficient-tools beta |
| Anthropic.ThinkingToggleHasNoEffect | crates/goose/src/providers/anthropic.rs:182-194 | the thinking toggle never changes the headers, and the extended-output beta is never sent |
| Anthropic.CompleteRequest | crates/goose/src/providers/anthropic.rs:176-197 | `complete` posts the built payload to `v1/messages` with the rule headers |
| Anthropic.StreamRequest | crates/goose/src/providers/anthropic.rs:253-277 | the streaming request has the same path and headers; its payload has `"stream": true` and every other member unchanged |
| Json.Insert | crates/goose/src/providers/anthropic.rs:256-259 | inserting into an object sets that member and leaves every other member as it was |
| Anthropic.StreamStatus | crates/goose/src/providers/anthropic.rs:293-300 | streaming proceeds iff the status is 2xx; otherwise it fails with RequestFailed carrying status and reply text |
| Anthropic.DecodeStream | crates/goose/src/providers/anthropic.rs:307-318 | decoded frames are yielded in order up to the first bad one, which ends the stream with a decode error; a stream of good frames yields all of them |
| Anthropic.StreamStopsAtFirstBadFrame | crates/goose/src/providers/anthropic.rs:311-317 | n good frames then a bad one yield exactly the n items, then the decode error |
| Anthropic.Complete | crates/goose/src/providers/anthropic.rs:196-212 | a classification error is returned as is, then a message-translation error, then a usage-translation error; success iff a 200 body translates into both a message and a usage, with the model taken from the body |
| Anthropic.ModelList | crates/goose/src/providers/anthropic.rs:225-244 | no data iff `models` is missing or not an array; otherwise the ids of string entries and of objects with a string `id`, sorted, each kept as often as entries carry it |
| Anthropic.ModelListKeepsDuplicates | crates/goose/src/providers/anthropic.rs:231-243 | when every entry has an id, all are kept, so repeated ids stay repeated |
| Anthropic.RepeatedIdKept | crates/goose/src/providers/anthropic.rs:231-243 | two entries with the same id leave that id at least twice in the result, whatever the other entries are |
| Anthropic.ModelId | crates/goose/src/providers/anthropic.rs:233-240 | a string entry is its own id; any other entry with an id is an object whose `id` member is that string; an object with a string `id` always has one |
| Listing.Collect | crates/goose/src/providers/anthropic.rs:231-242 | each id is kept exactly as many times as entries carry it, so the kept ids are those of the entries that have one, at most one per entry |
| Listing.SortedIds | crates/goose/src/providers/groq.rs:193-197 | the listing's ids are returned as a sorted permutation of the kept ids |
| Sorting.Sort | crates/goose/src/providers/anthropic.rs:243 | sorting yields a sorted permutation of its input |
| Sorting.SortedUnique | crates/goose/src/providers/anthropic.rs:243 | two sorted permutations of the same ids are equal, so the sorted listing is fully determined |
| Sorting.Le | crates/goose/src/providers/anthropic.rs:243 | the order `sort` uses on strings: a prefix comes before every extension of it, and a string never comes before one whose first character is smaller |
| Sorting.LeTotal | crates/goose/src/providers/anthropic.rs:243 | any two strings are comparable |
| Sorting.LeAntisymmetric | crates/goose/src/providers/anthropic.rs:243 | two strings each at most the other are equal |
| Sorting.LeTransitive | crates/goose/src/providers/anthropic.rs:243 | the order is transitive, so it is a total order |
| Groq.Classify | crates/goose/src/providers/groq.rs:73-97 | 200 with a body gives the body; 200 without one gives RequestFailed; 401/403 give Authentication; 413 gives ContextLengthExceeded without reading the body; 429 gives RateLimitExceeded; 500/503 give ServerError; every other status, 400 included, gives RequestFailed |
| Groq.KindDependsOnStatusOnly | crates/goose/src/providers/groq.rs:77-97 | outside 200, the error kind depends on the status alone, and is context length iff the status is 413 |
| Groq.Complete | crates/goose/src/providers/groq.rs:140-149 | a classification error is returned as is, then a message-translation error; success iff a 200 body translates into a message; a response without a `usage` member yields the empty usage instead of an error |
| Base.UsageOrDefault | crates/goose/src/providers/ollama.rs:145-148 | a missing `usage` member gives `Usage::default()`; a present one is translated |
| Groq.ModelList | crates/goose/src/providers/groq.rs:169-204 | non-JSON gives RequestFailed; an `error` member gives Authentication with its message or "unknown error"; then a 200 without a `data` array gives UsageError; a 200 with one always succeeds with the sorted ids, each kept as often as entries carry it; other statuses give RequestFailed |
| Groq.EmbeddedErrorBeatsStatus | crates/goose/src/providers/groq.rs:175-182 | with an `error` member the status is not looked at: the result is Authentication for every status |
| Groq.ModelId | crates/goose/src/providers/groq.rs:195 | an entry has an id iff it is an object whose `id` member is a string, which is the id; a bare string entry has none |
| Ollama.WithScheme | crates/goose/src/providers/ollama.rs:56-60 | a host with an http:// or https:// prefix is used unchanged, any other gets http:// in front |
| Ollama.WithSchemeIdempotent | crates/goose/src/providers/ollama.rs:56-60 | adding the scheme twice is the same as adding it once |
| Ollama.BaseUrl | crates/goose/src/providers/ollama.rs:54-79 | a parse failure gives RequestFailed; the port becomes 11434 iff none was parsed, the host does not end in :80 or :443 and the scheme is not https; a URL that cannot take that port gives RequestFailed "Failed to set default port"; an explicit port or an https URL is returned unchanged |
| Ollama.ToolsSent | crates/goose/src/providers/ollama.rs:131-133 | chat mode sends no tools; any other mode, unset meaning "auto", sends the caller's tools unchanged |
| Ollama.Complete | crates/goose/src/providers/ollama.rs:125-152 | the first failing step among request building, base URL, sending and message translation decides the error, returned as is; when all succeed the call succeeds with the translated message and the body's model; the usage is translated when `usage` is present and is the empty usage when it is missing |
| Ollama.ChatModeIgnoresTools | crates/goose/src/providers/ollama.rs:131-141 | in chat mode the caller's tool list has no influence on the call's outcome |

## Left out

- Transport and async plumbing (`reqwest` sends, `.await`, byte streams, line framing): replies enter as a status and a parsed body, which is absent when the body is not JSON.
- Frame decoding and request and response translation: `create_request`, `response_to_message`, `response_to_streaming_message`, `get_usage` and `get_model` are defined in files outside this model, so they are function parameters.
- A `create_request` failure in Anthropic's `complete` and `stream` and in Groq's `complete` ends the call before anything is sent. It is not modelled: `Anthropic.CompleteRequest`, `Anthropic.StreamRequest` and `Groq.Complete` start from the request it built or from the reply. (Ollama's `complete` does model it, as its `createRequest` parameter.)
- Anthropic.StreamRequest: requires the built payload to be a JSON object. `create_request` always builds one, so the panic of `as_object_mut().unwrap()` on any other value is not modelled.
- The Ollama reply classification: `handle_response_openai_compat` is outside this model, so it is part of the `post` parameter of `Ollama.Complete`.
- URL parsing and joining: `Url::parse` is a parameter returning a record of scheme, host and port. The record's port is absent when no port, or the scheme's default port, was written; the model assumes this and does not prove it. `join` of the endpoint paths is not modelled.
- Errors from sending a request, from reading the listing body in Anthropic, and from parsing a base URL in Anthropic and Groq are not modelled. The Rust conversions of these errors are outside this model.
- Configuration, secrets and environment: the API key, host, `GOOSE_MODE` and `CLAUDE_THINKING_ENABLED` enter as plain parameters.
- `HeaderValue` parsing of the API key, which panics on an invalid key, is not modelled: every key is accepted.
- `SharedTokenTracker` and all concurrency are left out. The tracker is modelled as a single-owner value.
- Static `metadata()`, `get_model_config`, `supports_streaming`, `from_env`, `emit_debug_trace` and tracing are left out. They hold constants or only log.
- The formatted message strings of errors are not modelled. Rust's `Display` of a status and `Debug` of a body are not modelled, so `Base.Detail` keeps their ingredients.
- Strings.Lower: lower-cases ASCII letters only, where Rust's `to_lowercase` is full Unicode. No other character lower-cases to a letter of "too long" or "too many", but this is argued, not proved.
- TokenTracker.TruncatedPercent: uses exact rational arithmetic. f64 rounding, where `0.29 * 100.0` is just below 29 and truncates to 28, is outside the model.
- TokenTracker.CheckWarning: compares thresholds exactly, where the code compares an f64 percentage. For counts that fit in i32 the two tests agree at and near 80% and 90%: f64 0.8 and 0.9 round up, and a count below a threshold is far further below it than the rounding error. This is argued, not proved. Rounding changes only the displayed percentage (see TokenTracker.TruncatedPercent).
- Base.Add: follows the documented per-field rule for `Usage`'s addition: unknown + unknown is unknown, and otherwise unknown counts as zero. providers/base.rs is not part of this model. Counts are unbounded integers, so i32 overflow in that addition is not modelled.
- JSON numbers are integers, and object member order is not modelled. Nothing modelled here depends on either.

=== FILE: anthropic.dfy ===
/** The Anthropic provider: how `post` classifies a reply, which headers
    `complete` and `stream` send, the streaming payload and stream shape, and
    the post-processing of the model listing. */
module Anthropic {
  import opened Wrappers
  import opened Base
  import opened Strings
  import Json
  import Sorting
  import Listing

  const ApiVersion := "2023-06-01"
  const MessagesPath := "v1/messages"
  const OutputBeta := "output-128k-2025-02-19"
  const TokenEfficientToolsBeta := "token-efficient-tools-2025-02-19"
  const BetaModelPrefix := "claude-3-7-sonnet-"
  const UnknownError := "Unknown error"

  /** `payload.get("error")`, when there is a payload. */
  function ErrorObject(payload: Option<Json.Value>): Option<Json.Value> {
    match payload
    case Some(body) => Json.Get(body, "error")
    case None => None
  }

  /** The message a 400 reply reports: `error.message` when it is a string,
      "Unknown error" otherwise. */
  function BadRequestMessage(payload: Option<Json.Value>): (m: string)
    ensures ErrorObject(payload).Some? && Json.GetStr(ErrorObject(payload).value, "message").Some? ==>
              m == Json.GetStr(ErrorObject(payload).value, "message").value
    ensures ErrorObject(payload).None? || Json.GetStr(ErrorObject(payload).value, "message").None? ==>
              m == UnknownError
  {
    match ErrorObject(payload)
    case Some(error) => Json.GetStr(error, "message").GetOr(UnknownError)
    case None => UnknownError
  }

  /** The test a 400 message must pass to count as a context-length error. */
  predicate MentionsContextLength(message: string) {
    Contains(Lower(message), "too long") || Contains(Lower(message), "too many")
  }

  lemma UnknownErrorIsNoContextLength()
    ensures !MentionsContextLength(UnknownError)
  {
    var low := Lower(UnknownError);
    assert low == "unknown error";
    MissingCharRulesOut(low, "too long", 0);
    MissingCharRulesOut(low, "too many", 0);
  }

  /** The `match status` of `post`: the body on 200, one error kind otherwise. */
  function Classify(status: StatusCode, payload: Option<Json.Value>): (r: Result<Json.Value, ProviderError>)
    ensures r.Ok? <==> status == 200 && payload.Some?
    ensures r.Ok? ==> r.value == payload.value
    ensures status == 200 && payload.None? ==> r == Err(ProviderError(RequestFailed, Text(NotJson)))
    ensures status == 401 || status == 403 ==>
              r == Err(ProviderError(Authentication, StatusAndBody(status, payload)))
    ensures status == 400 && MentionsContextLength(BadRequestMessage(payload)) ==>
              r == Err(ProviderError(ContextLengthExceeded, Text(BadRequestMessage(payload))))
    ensures status == 400 && !MentionsContextLength(BadRequestMessage(payload)) ==>
              r == Err(ProviderError(RequestFailed, StatusAndText(status, BadRequestMessage(payload))))
    ensures status == 429 ==> r == Err(ProviderError(RateLimitExceeded, Body(payload)))
    ensures status == 500 || status == 503 ==> r == Err(ProviderError(ServerError, Body(payload)))
    ensures status !in {200, 400, 401, 403, 429, 500, 503} ==>
              r == Err(ProviderError(RequestFailed, Status(status)))
  {
    if status == 200 then
      match payload
      case Some(body) => Ok(body)
      case None => Err(ProviderError(RequestFailed, Text(NotJson)))
    else if status == 401 || status == 403 then
      Err(ProviderError(Authentication, StatusAndBody(status, payload)))
    else if status == 400 then
      match ErrorObject(payload)
      case Some(error) =>
        var message := Json.GetStr(error, "message").GetOr(UnknownError);
        if MentionsContextLength(message) then
          Err(ProviderError(ContextLengthExceeded, Text(message)))
        else
          Err(ProviderError(RequestFailed, StatusAndText(status, message)))
      case None =>
        UnknownErrorIsNoContextLength();
        Err(ProviderError(RequestFailed, StatusAndText(status, UnknownError)))
    else if status == 429 then
      Err(ProviderError(RateLimitExceeded, Body(payload)))
    else if status == 500 || status == 503 then
      Err(ProviderError(ServerError, Body(payload)))
    else
      Err(ProviderError(RequestFailed, Status(status)))
  }

  /** A context-length error only ever comes from a 400 whose `error.message`
      contains "too long" or "too many" in any letter case, and carries that
      message unchanged. */
  lemma ContextLengthOnlyFromBadRequest(status: StatusCode, payload: Option<Json.Value>)
    requires Classify(status, payload).Err?
    requires Classify(status, payload).error.kind == ContextLengthExceeded
    ensures status == 400
    ensures ErrorObject(payload).Some?
    ensures var message := Json.GetStr(ErrorObject(payload).value, "message");
            && message.Some?
            && Classify(status, payload).error.detail == Text(message.value)
            && (Occurs(Lower(message.value), "too long") || Occurs(Lower(message.value), "too many"))
  {
    UnknownErrorIsNoContextLength();
  }

  /** Apart from 200 and 400, the reply body never changes the kind of outcome. */
  lemma KindIgnoresBody(status: StatusCode, p1: Option<Json.Value>, p2: Option<Json.Value>)
    requires status != 200 && status != 400
    ensures Classify(status, p1).Err? && Classify(status, p2).Err?
    ensures Classify(status, p1).error.kind == Classify(status, p2).error.kind
  {
  }

  /** A reply reporting `message` under `error`, as the API shapes its errors. */
  function ErrorReply(message: string): Option<Json.Value> {
    Some(Json.Object(map["error" := Json.Object(map["message" := Json.String(message)])]))
  }

  lemma ErrorReplyMessage(message: string)
    ensures BadRequestMessage(ErrorReply(message)) == message
  {
  }

  /** An over-long prompt, whatever the letter case of the report. */
  lemma PromptTooLongSample()
    ensures Classify(400, ErrorReply("Prompt is too long")) ==
              Err(ProviderError(ContextLengthExceeded, Text("Prompt is too long")))
  {
    ErrorReplyMessage("Prompt is too long");
    var low := Lower("Prompt is too long");
    assert low[..10] == "prompt is ";
    assert low[10..18] == "too long";
    assert OccursAt(low, "too long", 10);
  }

  /** A 400 about something else is a plain request failure. */
  lemma UnrelatedBadRequestSample()
    ensures Classify(400, ErrorReply("bad model")) == Err(ProviderError(RequestFailed, StatusAndText(400, "bad model")))
  {
    ErrorReplyMessage("bad model");
    var low := Lower("bad model");
    assert low == "bad model";
    MissingCharRulesOut(low, "too long", 0);
    MissingCharRulesOut(low, "too many", 0);
  }

  /** The headers of a messages request. `HeaderMap::insert` replaces an earlier
      value, so when both beta rules apply the second one wins. */
  function Headers(apiKey: string, modelName: string, thinkingEnabled: bool): (h: map<string, string>)
    ensures h.Keys == {"x-api-key", "anthropic-version"} + (if StartsWith(modelName, BetaModelPrefix) then {"anthropic-beta"} else {})
    ensures h["x-api-key"] == apiKey
    ensures h["anthropic-version"] == ApiVersion
    ensures "anthropic-beta" in h ==> h["anthropic-beta"] == TokenEfficientToolsBeta
  {
    var h := map["x-api-key" := apiKey];
    var h := h["anthropic-version" := ApiVersion];
    var h := if StartsWith(modelName, BetaModelPrefix) && thinkingEnabled then h["anthropic-beta" := OutputBeta] else h;
    if StartsWith(modelName, BetaModelPrefix) then h["anthropic-beta" := TokenEfficientToolsBeta] else h
  }

  /** The thinking toggle never changes what is sent: the extended-output beta
      it selects is always overwritten. */
  lemma ThinkingToggleHasNoEffect(apiKey: string, modelName: string)
    ensures Headers(apiKey, modelName, true) == Headers(apiKey, modelName, false)
    ensures forall thinking: bool :: "anthropic-beta" in Headers(apiKey, modelName, thinking) ==>
              Headers(apiKey, modelName, thinking)["anthropic-beta"] != OutputBeta
  {
  }

  /** An HTTP request: endpoint path relative to the host, headers, JSON body. */
  datatype Request = Request(path: string, headers: map<string, string>, payload: Json.Value)

  /** The request `complete` sends for the payload `create_request` built. */
  function CompleteRequest(apiKey: string, modelName: string, thinkingEnabled: bool, payload: Json.Value): (r: Request)
    ensures r.path == MessagesPath
    ensures r.headers == Headers(apiKey, modelName, thinkingEnabled)
    ensures r.payload == payload
  {
    Request(MessagesPath, Headers(apiKey, modelName, thinkingEnabled), payload)
  }

  /** The request `stream` sends: that of `complete` with `"stream": true` added
      to the payload, which `create_request` always builds as an object. */
  function StreamRequest(apiKey: string, modelName: string, thinkingEnabled: bool, payload: Json.Value): (r: Request)
    requires payload.Object?
    ensures var plain := CompleteRequest(apiKey, modelName, thinkingEnabled, payload);
            r.path == plain.path && r.headers == plain.headers
    ensures r.payload.Object?
    ensures Json.Get(r.payload, "stream") == Some(Json.Bool(true))
    ensures forall k :: k != "stream" ==> Json.Get(r.payload, k) == Json.Get(payload, k)
  {
    Request(MessagesPath, Headers(apiKey, modelName, thinkingEnabled), Json.Insert(payload, "stream", Json.Bool(true)))
  }

  /** The status check of `stream`: any non-success status fails with the
      status and the reply text, whatever the status is. */
  function StreamStatus(status: StatusCode, errorText: string): (r: Option<ProviderError>)
    ensures r.None? <==> IsSuccess(status)
    ensures r.Some? ==> r.value == ProviderError(RequestFailed, StatusAndText(status, errorText))
  {
    if IsSuccess(status) then None else Some(ProviderError(RequestFailed, StatusAndText(status, errorText)))
  }

  /** What a consumer of the stream sees: the items yielded, then possibly an error. */
  datatype Yielded<M> = Yielded(items: seq<M>, failure: Option<ProviderError>)

  /** The `try_stream!` loop over decoded frames: yields every frame in order
      until the first frame that fails to decode, which ends the stream with a
      "Stream decode error"; frames already yielded stay yielded. */
  function DecodeStream<M>(frames: seq<Result<M, string>>): (r: Yielded<M>)
    ensures |r.items| <= |frames|
    ensures forall i :: 0 <= i < |r.items| ==> frames[i] == Ok(r.items[i])
    ensures r.failure.None? <==> forall i :: 0 <= i < |frames| ==> frames[i].Ok?
    ensures r.failure.None? ==> |r.items| == |frames|
    ensures r.failure.Some? ==>
              && |r.items| < |frames|
              && frames[|r.items|].Err?
              && r.failure.value == ProviderError(RequestFailed, Text("Stream decode error: " + frames[|r.items|].error))
  {
    if |frames| == 0 then
      Yielded([], None)
    else
      match frames[0]
      case Err(e) => Yielded([], Some(ProviderError(RequestFailed, Text("Stream decode error: " + e))))
      case Ok(m) =>
        var rest := DecodeStream(frames[1..]);
        assert forall i :: 0 <= i < |frames[1..]| ==> frames[1..][i] == frames[i + 1];
        Yielded([m] + rest.items, rest.failure)
  }

  /** A stream with a bad frame after `n` good ones yields exactly those `n`
      items, then the decode error. */
  lemma {:induction false} StreamStopsAtFirstBadFrame<M>(good: seq<M>, bad: string, later: seq<Result<M, string>>)
    ensures var frames := seq(|good|, i requires 0 <= i < |good| => Ok(good[i])) + [Err(bad)] + later;
            DecodeStream(frames) == Yielded(good, Some(ProviderError(RequestFailed, Text("Stream decode error: " + bad))))
  {
    var frames := seq(|good|, i requires 0 <= i < |good| => Ok(good[i])) + [Err(bad)] + later;
    var r := DecodeStream(frames);
    assert frames[|good|] == Err(bad);
    assert !(forall i :: 0 <= i < |frames| ==> frames[i].Ok?);
    assert |r.items| == |good|;
    assert forall i :: 0 <= i < |good| ==> Ok(r.items[i]) == frames[i] == Ok(good[i]);
  }

  /** The identifier of one listed model: a bare string, or an object's string `id`. */
  function ModelId(v: Json.Value): (r: Option<string>)
    ensures v.String? ==> r == Some(v.s)
    ensures r.Some? && !v.String? ==> v.Object? && Json.Get(v, "id") == Some(Json.String(r.value))
    ensures v.Object? && Json.GetStr(v, "id").Some? ==> r.Some?
  {
    match v
    case String(s) => Some(s)
    case Object(_) => Json.GetStr(v, "id")
    case _ => None
  }

  /** `fetch_supported_models_async` after the body is read: no data when
      `models` is missing or not an array, else the sorted identifiers of the
      entries that have one, without de-duplication. */
  function ModelList(body: Json.Value): (r: Option<seq<string>>)
    ensures r.None? <==> Json.GetArray(body, "models").None?
    ensures r.Some? ==>
              var listed := Json.GetArray(body, "models").value;
              && Sorting.Sorted(r.value)
              && multiset(r.value) == multiset(Listing.Collect(listed, ModelId))
              && (forall s :: multiset(r.value)[s] == multiset(Listing.IdsOf(listed, ModelId))[Some(s)])
              && |r.value| <= |listed|
              && (forall s :: s in r.value <==> exists i :: 0 <= i < |listed| && ModelId(listed[i]) == Some(s))
  {
    match Json.GetArray(body, "models")
    case Some(listed) => Some(Listing.SortedIds(listed, ModelId))
    case None => None
  }

  /** A listing whose entries all carry an identifier keeps every one of them:
      repeated identifiers stay repeated. */
  lemma ModelListKeepsDuplicates(body: Json.Value)
    requires Json.GetArray(body, "models").Some?
    requires var listed := Json.GetArray(body, "models").value;
             forall i :: 0 <= i < |listed| ==> ModelId(listed[i]).Some?
    ensures |ModelList(body).value| == |Json.GetArray(body, "models").value|
  {
    var listed := Json.GetArray(body, "models").value;
    var ids := Listing.Collect(listed, ModelId);
    assert |ModelList(body).value| == |multiset(ModelList(body).value)| == |multiset(ids)| == |ids|;
  }

  /** Two entries carrying the same identifier leave it twice in the result,
      whatever the other entries are. */
  lemma {:induction false} RepeatedIdKept(body: Json.Value, i: nat, j: nat, id: string)
    requires Json.GetArray(body, "models").Some?
    requires var listed := Json.GetArray(body, "models").value;
             i < j < |listed| && ModelId(listed[i]) == Some(id) && ModelId(listed[j]) == Some(id)
    ensures multiset(ModelList(body).value)[id] >= 2
  {
    var listed := Json.GetArray(body, "models").value;
    var q := Listing.IdsOf(listed, ModelId);
    assert q == q[..i] + [q[i]] + q[i + 1..j] + [q[j]] + q[j + 1..];
    assert multiset(q) == multiset(q[..i]) + multiset{q[i]} + multiset(q[i + 1..j]) + multiset{q[j]} + multiset(q[j + 1..]);
  }

  /** `complete` once the request is built: classify the reply, then translate
      the body. The translators (`response_to_message`, `get_usage`,
      `get_model`) are parameters; a failure of either of the first two is
      returned unchanged. */
  function Complete<M>(status: StatusCode, payload: Option<Json.Value>,
                       toMessage: Json.Value -> Result<M, ProviderError>,
                       getUsage: Json.Value -> Result<Usage, ProviderError>,
                       getModel: Json.Value -> string): (r: Result<(M, ProviderUsage), ProviderError>)
    ensures Classify(status, payload).Err? ==> r == Err(Classify(status, payload).error)
    ensures r.Ok? ==>
              && status == 200 && payload.Some?
              && toMessage(payload.value) == Ok(r.value.0)
              && getUsage(payload.value) == Ok(r.value.1.usage)
              && r.value.1.model == getModel(payload.value)
    ensures status == 200 && payload.Some? && toMessage(payload.value).Ok? && getUsage(payload.value).Ok? ==> r.Ok?
    ensures Classify(status, payload).Ok? && toMessage(payload.value).Err? ==> r == Err(toMessage(payload.value).error)
    ensures Classify(status, payload).Ok? && toMessage(payload.value).Ok? && getUsage(payload.value).Err? ==>
              r == Err(getUsage(payload.value).error)
  {
    var response :- Classify(status, payload);
    var message :- toMessage(response);
    var usage :- getUsage(response);
    Ok((message, ProviderUsage(getModel(response), usage)))
  }
}

=== FILE: base.dfy ===
/** The types the providers share: HTTP status codes, token usage and the
    closed error taxonomy. The Rust definitions of `Usage`, `ProviderUsage` and
    `ProviderError` (providers/base.rs, providers/errors.rs) are not part of
    this model; what is stated here follows their documented behaviour. */
module Base {
  import opened Wrappers
  import Json

  /** `reqwest::StatusCode` accepts exactly the three-digit codes. */
  type StatusCode = s: int | 100 <= s <= 999 witness 200

  /** `StatusCode::is_success` */
  predicate IsSuccess(status: StatusCode) {
    200 <= status <= 299
  }

  /** Token counts a backend reported; any of them may be unknown. */
  datatype Usage = Usage(inputTokens: Option<int>, outputTokens: Option<int>, totalTokens: Option<int>)

  /** `Usage::default()`: nothing known. */
  const NoUsage := Usage(None, None, None)

  /** A `Usage` together with the concrete model that produced it. */
  datatype ProviderUsage = ProviderUsage(model: string, usage: Usage)

  /** Adds two optional counts: the sum is unknown only when both are, and an
      unknown count otherwise contributes zero. */
  function AddTokens(a: Option<int>, b: Option<int>): (r: Option<int>)
    ensures r.None? <==> a.None? && b.None?
    ensures r.Some? ==> r.value == a.GetOr(0) + b.GetOr(0)
  {
    match (a, b)
    case (Some(x), Some(y)) => Some(x + y)
    case (Some(x), None) => Some(x)
    case (None, Some(y)) => Some(y)
    case (None, None) => None
  }

  /** `Usage += Usage`: field-wise `AddTokens`. */
  function Add(a: Usage, b: Usage): (r: Usage)
    ensures r.inputTokens.None? <==> a.inputTokens.None? && b.inputTokens.None?
    ensures r.outputTokens.None? <==> a.outputTokens.None? && b.outputTokens.None?
    ensures r.totalTokens.None? <==> a.totalTokens.None? && b.totalTokens.None?
    ensures r.totalTokens.Some? ==> r.totalTokens.value == a.totalTokens.GetOr(0) + b.totalTokens.GetOr(0)
  {
    Usage(AddTokens(a.inputTokens, b.inputTokens),
          AddTokens(a.outputTokens, b.outputTokens),
          AddTokens(a.totalTokens, b.totalTokens))
  }

  /** The three counts of a `Usage`, so that one statement covers each of them. */
  datatype Field = InputTokens | OutputTokens | TotalTokens

  function Count(u: Usage, f: Field): Option<int> {
    match f
    case InputTokens => u.inputTokens
    case OutputTokens => u.outputTokens
    case TotalTokens => u.totalTokens
  }

  lemma AddFieldwise(a: Usage, b: Usage, f: Field)
    ensures Count(Add(a, b), f) == AddTokens(Count(a, f), Count(b, f))
  {
  }

  /** Additions commute and associate, so the order in which usages arrive
      does not change their total. */
  lemma AddCommutes(a: Usage, b: Usage)
    ensures Add(a, b) == Add(b, a)
  {
  }

  lemma AddAssociates(a: Usage, b: Usage, c: Usage)
    ensures Add(Add(a, b), c) == Add(a, Add(b, c))
  {
  }

  /** The accumulated usage of a sequence of reports, added in order. */
  function Total(us: seq<Usage>): Usage {
    if |us| == 0 then NoUsage else Add(Total(us[..|us| - 1]), us[|us| - 1])
  }

  /** The sum of the known values of one field, unknown ones counting zero. */
  function KnownSum(us: seq<Usage>, f: Field): int {
    if |us| == 0 then 0 else KnownSum(us[..|us| - 1], f) + Count(us[|us| - 1], f).GetOr(0)
  }

  /** A field of the total is unknown iff every report left it unknown, and
      otherwise it is the sum of the known values. */
  lemma {:induction false} TotalFieldwise(us: seq<Usage>, f: Field)
    ensures Count(Total(us), f).None? <==> forall i :: 0 <= i < |us| ==> Count(us[i], f).None?
    ensures Count(Total(us), f).Some? ==> Count(Total(us), f).value == KnownSum(us, f)
  {
    if |us| > 0 {
      var init := us[..|us| - 1];
      TotalFieldwise(init, f);
      AddFieldwise(Total(init), us[|us| - 1], f);
      assert forall i :: 0 <= i < |init| ==> init[i] == us[i];
      if Count(Total(init), f).None? {
        assert forall i :: 0 <= i < |init| ==> Count(us[i], f).None?;
        assert KnownSum(init, f) == 0 by {
          KnownSumOfUnknowns(init, f);
        }
      }
    }
  }

  lemma {:induction false} KnownSumOfUnknowns(us: seq<Usage>, f: Field)
    requires forall i :: 0 <= i < |us| ==> Count(us[i], f).None?
    ensures KnownSum(us, f) == 0
  {
    if |us| > 0 {
      KnownSumOfUnknowns(us[..|us| - 1], f);
    }
  }

  /** `response.get("usage").map(get_usage).unwrap_or_default()`: a response
      without a usage section is not an error; it yields `Usage::default()`. */
  function UsageOrDefault(response: Json.Value, getUsage: Json.Value -> Usage): (u: Usage)
    ensures Json.Get(response, "usage").None? ==> u == NoUsage
    ensures Json.Get(response, "usage").Some? ==> u == getUsage(Json.Get(response, "usage").value)
  {
    match Json.Get(response, "usage")
    case Some(section) => getUsage(section)
    case None => NoUsage
  }

  /** The closed error taxonomy; no backend-specific kind exists. */
  datatype ErrorKind =
    | Authentication
    | ContextLengthExceeded
    | RateLimitExceeded
    | ServerError
    | RequestFailed
    | UsageError

  /** What an error message is formatted from. Rust's `Display` of a status and
      `Debug` of a body are not modelled: the error keeps their ingredients. */
  datatype Detail =
    | Text(text: string)
    | Body(body: Option<Json.Value>)
    | Status(status: StatusCode)
    | StatusAndBody(status: StatusCode, body: Option<Json.Value>)
    | StatusAndText(status: StatusCode, text: string)

  datatype ProviderError = ProviderError(kind: ErrorKind, detail: Detail)

  const NotJson := "Response body is not valid JSON"
}

=== FILE: groq.dfy ===
/** The Groq provider: how `post` classifies a reply, how `complete` treats a
    missing usage section, and how the model listing is read. */
module Groq {
  import opened Wrappers
  import opened Base
  import Json
  import Sorting
  import Listing

  const CompletionsPath := "openai/v1/chat/completions"
  const ModelsPath := "openai/v1/models"
  const UnknownError := "unknown error"
  const MissingData := "Missing or invalid `data` field in response"

  /** The `match status` of `post`. Only a 200 looks at the body; 413 is the
      context-length status and a 400 is an ordinary request failure. */
  function Classify(status: StatusCode, payload: Option<Json.Value>): (r: Result<Json.Value, ProviderError>)
    ensures r.Ok? <==> status == 200 && payload.Some?
    ensures r.Ok? ==> r.value == payload.value
    ensures status == 200 && payload.None? ==> r == Err(ProviderError(RequestFailed, Text(NotJson)))
    ensures status == 401 || status == 403 ==>
              r == Err(ProviderError(Authentication, StatusAndBody(status, payload)))
    ensures status == 413 ==> r == Err(ProviderError(ContextLengthExceeded, Body(payload)))
    ensures status == 429 ==> r == Err(ProviderError(RateLimitExceeded, Body(payload)))
    ensures status == 500 || status == 503 ==> r == Err(ProviderError(ServerError, Body(payload)))
    ensures status !in {200, 401, 403, 413, 429, 500, 503} ==>
              r == Err(ProviderError(RequestFailed, StatusAndBody(status, payload)))
  {
    if status == 200 then
      match payload
      case Some(body) => Ok(body)
      case None => Err(ProviderError(RequestFailed, Text(NotJson)))
    else if status == 401 || status == 403 then
      Err(ProviderError(Authentication, StatusAndBody(status, payload)))
    else if status == 413 then
      Err(ProviderError(ContextLengthExceeded, Body(payload)))
    else if status == 429 then
      Err(ProviderError(RateLimitExceeded, Body(payload)))
    else if status == 500 || status == 503 then
      Err(ProviderError(ServerError, Body(payload)))
    else
      Err(ProviderError(RequestFailed, StatusAndBody(status, payload)))
  }

  /** The kind of every failure is fixed by the status alone: no body turns a
      Groq reply into a context-length error unless the status is 413. */
  lemma KindDependsOnStatusOnly(status: StatusCode, p1: Option<Json.Value>, p2: Option<Json.Value>)
    requires status != 200
    ensures Classify(status, p1).Err? && Classify(status, p2).Err?
    ensures Classify(status, p1).error.kind == Classify(status, p2).error.kind
    ensures Classify(status, p1).error.kind == ContextLengthExceeded <==> status == 413
  {
  }

  /** `complete` once the request is sent: classify the reply, translate the
      body, and take the usage from its `usage` section, defaulting to an
      empty usage when there is none. The translators are parameters. */
  function Complete<M>(status: StatusCode, payload: Option<Json.Value>,
                       toMessage: Json.Value -> Result<M, ProviderError>,
                       getUsage: Json.Value -> Usage,
                       getModel: Json.Value -> string): (r: Result<(M, ProviderUsage), ProviderError>)
    ensures Classify(status, payload).Err? ==> r == Err(Classify(status, payload).error)
    ensures r.Ok? <==> status == 200 && payload.Some? && toMessage(payload.value).Ok?
    ensures Classify(status, payload).Ok? && toMessage(payload.value).Err? ==> r == Err(toMessage(payload.value).error)
    ensures r.Ok? ==>
              && toMessage(payload.value) == Ok(r.value.0)
              && r.value.1.model == getModel(payload.value)
              && (Json.Get(payload.value, "usage").None? ==> r.value.1.usage == NoUsage)
              && (Json.Get(payload.value, "usage").Some? ==>
                    r.value.1.usage == getUsage(Json.Get(payload.value, "usage").value))
  {
    var response :- Classify(status, payload);
    var message :- toMessage(response);
    var usage := UsageOrDefault(response, getUsage);
    Ok((message, ProviderUsage(getModel(response), usage)))
  }

  /** The identifier of one listed model: its string `id`. Unlike Anthropic's
      listing, a bare string entry has none. */
  function ModelId(v: Json.Value): (r: Option<string>)
    ensures r.Some? <==> v.Object? && "id" in v.fields && v.fields["id"].String?
    ensures r.Some? ==> v.fields["id"] == Json.String(r.value)
  {
    Json.GetStr(v, "id")
  }

  /** `fetch_supported_models_async` after the reply arrives. A body that is not
      JSON fails; an `error` member means an authentication failure, whatever
      the status; then a 200 must carry a `data` array, whose identifiers are
      returned sorted; any other status is a request failure. */
  function ModelList(status: StatusCode, payload: Option<Json.Value>): (r: Result<Option<seq<string>>, ProviderError>)
    ensures payload.None? ==> r == Err(ProviderError(RequestFailed, Text(NotJson)))
    ensures payload.Some? && Json.Get(payload.value, "error").Some? ==>
              var error := Json.Get(payload.value, "error").value;
              r == Err(ProviderError(Authentication, Text(Json.GetStr(error, "message").GetOr(UnknownError))))
    ensures payload.Some? && Json.Get(payload.value, "error").None? && status == 200 &&
            Json.GetArray(payload.value, "data").None? ==>
              r == Err(ProviderError(UsageError, Text(MissingData)))
    ensures payload.Some? && Json.Get(payload.value, "error").None? && status != 200 ==>
              r == Err(ProviderError(RequestFailed, StatusAndBody(status, payload)))
    ensures r.Ok? ==>
              && payload.Some? && status == 200 && Json.Get(payload.value, "error").None?
              && Json.GetArray(payload.value, "data").Some?
              && r.value.Some?
              && var listed := Json.GetArray(payload.value, "data").value;
                 && Sorting.Sorted(r.value.value)
                 && multiset(r.value.value) == multiset(Listing.Collect(listed, ModelId))
                 && (forall s :: multiset(r.value.value)[s] == multiset(Listing.IdsOf(listed, ModelId))[Some(s)])
                 && (forall s :: s in r.value.value <==> exists i :: 0 <= i < |listed| && ModelId(listed[i]) == Some(s))
    ensures payload.Some? && Json.Get(payload.value, "error").None? && status == 200 &&
            Json.GetArray(payload.value, "data").Some? ==>
              r == Ok(Some(Listing.SortedIds(Json.GetArray(payload.value, "data").value, ModelId)))
    ensures r.Err? ==> r.error.kind in {RequestFailed, Authentication, UsageError}
  {
    match payload
    case None => Err(ProviderError(RequestFailed, Text(NotJson)))
    case Some(body) =>
      match Json.Get(body, "error")
      case Some(error) => Err(ProviderError(Authentication, Text(Json.GetStr(error, "message").GetOr(UnknownError))))
      case None =>
        if status == 200 then
          match Json.GetArray(body, "data")
          case Some(listed) => Ok(Some(Listing.SortedIds(listed, ModelId)))
          case None => Err(ProviderError(UsageError, Text(MissingData)))
        else
          Err(ProviderError(RequestFailed, StatusAndBody(status, payload)))
  }

  /** An embedded error object wins over every status, including 200. */
  lemma EmbeddedErrorBeatsStatus(s1: StatusCode, s2: StatusCode, body: Json.Value)
    requires Json.Get(body, "error").Some?
    ensures ModelList(s1, Some(body)) == ModelList(s2, Some(body))
    ensures ModelList(s1, Some(body)).Err? && ModelList(s1, Some(body)).error.kind == Authentication
  {
  }
}

=== FILE: json.dfy ===
/** A JSON document as `serde_json::Value` holds it. Object keys are unique, as
    in serde_json's default map; numbers are kept as integers, since no
    behaviour modelled here depends on fractional numbers. */
module Json {
  import opened Wrappers

  datatype Value =
    | Null
    | Bool(b: bool)
    | Number(n: int)
    | String(s: string)
    | Array(elems: seq<Value>)
    | Object(fields: map<string, Value>)

  /** `Value::get(key)`: the member of an object; absent for every other kind of value. */
  function Get(v: Value, key: string): Option<Value> {
    if v.Object? && key in v.fields then Some(v.fields[key]) else None
  }

  /** `Value::as_str` */
  function AsStr(v: Value): Option<string> {
    if v.String? then Some(v.s) else None
  }

  /** `Value::as_array` */
  function AsArray(v: Value): Option<seq<Value>> {
    if v.Array? then Some(v.elems) else None
  }

  /** `v.get(key).and_then(|m| m.as_str())` */
  function GetStr(v: Value, key: string): Option<string> {
    match Get(v, key)
    case Some(m) => AsStr(m)
    case None => None
  }

  /** `v.get(key).and_then(|m| m.as_array())` */
  function GetArray(v: Value, key: string): Option<seq<Value>> {
    match Get(v, key)
    case Some(m) => AsArray(m)
    case None => None
  }

  /** `as_object_mut().insert(key, x)`: the member under `key` is replaced,
      every other member is kept. */
  function Insert(v: Value, key: string, x: Value): (r: Value)
    requires v.Object?
    ensures r.Object?
    ensures Get(r, key) == Some(x)
    ensures forall k :: k != key ==> Get(r, k) == Get(v, k)
  {
    Object(v.fields[key := x])
  }
}

=== FILE: listing.dfy ===
/** The shape shared by the model-listing endpoints: keep the identifiers of
    the listed entries (`filter_map`), then sort them. */
module Listing {
  import opened Wrappers
  import Json
  import Sorting

  /** What `idOf` makes of each entry, one per entry. */
  function IdsOf(vs: seq<Json.Value>, idOf: Json.Value -> Option<string>): (r: seq<Option<string>>)
    ensures |r| == |vs|
    ensures forall i :: 0 <= i < |vs| ==> r[i] == idOf(vs[i])
  {
    seq(|vs|, i requires 0 <= i < |vs| => idOf(vs[i]))
  }

  /** `iter().filter_map(idOf).collect()`: the identifiers in listing order,
      without de-duplication. Each identifier is kept as often as entries
      carry it. */
  function Collect(vs: seq<Json.Value>, idOf: Json.Value -> Option<string>): (r: seq<string>)
    ensures |r| <= |vs|
    ensures forall s :: multiset(r)[s] == multiset(IdsOf(vs, idOf))[Some(s)]
    ensures forall s :: s in r <==> exists i :: 0 <= i < |vs| && idOf(vs[i]) == Some(s)
    ensures (forall i :: 0 <= i < |vs| ==> idOf(vs[i]).Some?) ==> |r| == |vs|
  {
    if |vs| == 0 then
      []
    else
      var rest := Collect(vs[1..], idOf);
      TailMembership(vs, idOf);
      var ids := IdsOf(vs, idOf);
      assert ids == [idOf(vs[0])] + IdsOf(vs[1..], idOf);
      assert multiset(ids) == multiset{idOf(vs[0])} + multiset(IdsOf(vs[1..], idOf));
      match idOf(vs[0])
      case Some(s) =>
        assert multiset([s] + rest) == multiset{s} + multiset(rest);
        [s] + rest
      case None => rest
  }

  /** An identifier is carried by some entry iff it is carried by the first or by one of the rest. */
  lemma TailMembership(vs: seq<Json.Value>, idOf: Json.Value -> Option<string>)
    requires |vs| > 0
    ensures forall s :: (exists i :: 0 <= i < |vs| && idOf(vs[i]) == Some(s)) <==>
                        (idOf(vs[0]) == Some(s) || exists i :: 0 <= i < |vs[1..]| && idOf(vs[1..][i]) == Some(s))
  {
    forall s
      ensures (exists i :: 0 <= i < |vs| && idOf(vs[i]) == Some(s)) ==>
              (idOf(vs[0]) == Some(s) || exists i :: 0 <= i < |vs[1..]| && idOf(vs[1..][i]) == Some(s))
    {
      if exists i :: 0 <= i < |vs| && idOf(vs[i]) == Some(s) {
        var i :| 0 <= i < |vs| && idOf(vs[i]) == Some(s);
        if i > 0 {
          assert vs[1..][i - 1] == vs[i];
        }
      }
    }
  }

  /** The identifiers of the listed entries, sorted, each kept as often as
      entries carry it. */
  function SortedIds(vs: seq<Json.Value>, idOf: Json.Value -> Option<string>): (r: seq<string>)
    ensures Sorting.Sorted(r)
    ensures multiset(r) == multiset(Collect(vs, idOf))
    ensures forall s :: multiset(r)[s] == multiset(IdsOf(vs, idOf))[Some(s)]
    ensures |r| <= |vs|
    ensures forall s :: s in r <==> exists i :: 0 <= i < |vs| && idOf(vs[i]) == Some(s)
  {
    var ids := Collect(vs, idOf);
    var r := Sorting.Sort(ids);
    assert |r| == |multiset(r)| == |multiset(ids)| == |ids|;
    assert forall s :: s in r <==> s in multiset(ids);
    r
  }
}

=== FILE: ollama.dfy ===
/** The Ollama provider: how the configured host becomes the base URL, and
    how the session mode filters the tools `complete` sends. */
module Ollama {
  import opened Wrappers
  import opened Base
  import opened Strings
  import Json

  const DefaultHost := "localhost"
  const DefaultPort: nat := 11434
  const ChatMode := "chat"
  const DefaultMode := "auto"

  /** A parsed URL, reduced to what `get_base_url` looks at. As with
      `Url::port`, `port` is absent when no port, or the scheme's default
      port, was written. */
  datatype Url = Url(scheme: string, host: string, port: Option<nat>)

  /** A host written without a scheme is taken to be plain HTTP. */
  function WithScheme(host: string): (base: string)
    ensures StartsWith(base, "http://") || StartsWith(base, "https://")
    ensures StartsWith(host, "http://") || StartsWith(host, "https://") ==> base == host
    ensures !(StartsWith(host, "http://") || StartsWith(host, "https://")) ==> base == "http://" + host
  {
    if StartsWith(host, "http://") || StartsWith(host, "https://") then host
    else
      assert ("http://" + host)[..7] == "http://";
      "http://" + host
  }

  lemma WithSchemeIdempotent(host: string)
    ensures WithScheme(WithScheme(host)) == WithScheme(host)
  {
  }

  /** `Url::set_port` refuses URLs without a host and `file:` URLs. */
  predicate CanHavePort(u: Url) {
    u.host != "" && u.scheme != "file"
  }

  /** The default port is added when the URL has no port, the configured host
      does not end in an explicit `:80` or `:443`, and the scheme is not https. */
  predicate NeedsDefaultPort(host: string, u: Url) {
    u.port.None? && !EndsWith(host, ":80") && !EndsWith(host, ":443") && u.scheme != "https"
  }

  /** `get_base_url`, with `Url::parse` as the parameter `parse` (its error
      text on failure). */
  function BaseUrl(host: string, parse: string -> Result<Url, string>): (r: Result<Url, ProviderError>)
    ensures parse(WithScheme(host)).Err? ==>
              r == Err(ProviderError(RequestFailed, Text("Invalid base URL: " + parse(WithScheme(host)).error)))
    ensures parse(WithScheme(host)).Ok? ==>
              var u := parse(WithScheme(host)).value;
              && (r.Err? <==> NeedsDefaultPort(host, u) && !CanHavePort(u))
              && (r.Ok? ==> r.value.scheme == u.scheme && r.value.host == u.host)
              && (r.Ok? ==> (r.value.port != u.port <==> NeedsDefaultPort(host, u)))
              && (r.Ok? && r.value.port != u.port ==> r.value.port == Some(DefaultPort))
              && (u.port.Some? ==> r == Ok(u))
              && (u.scheme == "https" ==> r == Ok(u))
    ensures parse(WithScheme(host)).Ok? && r.Err? ==> r == Err(ProviderError(RequestFailed, Text("Failed to set default port")))
  {
    var u :- parse(WithScheme(host)).MapErr(e => ProviderError(RequestFailed, Text("Invalid base URL: " + e)));
    if NeedsDefaultPort(host, u) then
      if CanHavePort(u) then Ok(u.(port := Some(DefaultPort)))
      else Err(ProviderError(RequestFailed, Text("Failed to set default port")))
    else
      Ok(u)
  }

  /** The mode read from configuration, "auto" when unset. */
  function Mode(configured: Option<string>): string {
    configured.GetOr(DefaultMode)
  }

  /** The tools `complete` passes on: none in chat mode, else the caller's list unchanged. */
  function ToolsSent<T>(configuredMode: Option<string>, tools: seq<T>): (r: seq<T>)
    ensures configuredMode == Some(ChatMode) ==> r == []
    ensures configuredMode != Some(ChatMode) ==> r == tools
  {
    if Mode(configuredMode) == ChatMode then [] else tools
  }

  /** `complete`. The request is built from the filtered tools, then posted to
      the base URL; the reply classification (`handle_response_openai_compat`),
      the sending, and the translators are parameters. The first failing step
      decides the error; once the message is translated the call succeeds, and
      a response without a usage section yields an empty usage. */
  function Complete<T, M>(host: string, parse: string -> Result<Url, string>,
                          configuredMode: Option<string>, tools: seq<T>,
                          createRequest: seq<T> -> Result<Json.Value, ProviderError>,
                          post: (Url, Json.Value) -> Result<Json.Value, ProviderError>,
                          toMessage: Json.Value -> Result<M, ProviderError>,
                          getUsage: Json.Value -> Usage,
                          getModel: Json.Value -> string): (r: Result<(M, ProviderUsage), ProviderError>)
    ensures createRequest(ToolsSent(configuredMode, tools)).Err? ==>
              r == Err(createRequest(ToolsSent(configuredMode, tools)).error)
    ensures createRequest(ToolsSent(configuredMode, tools)).Ok? && BaseUrl(host, parse).Err? ==>
              r == Err(BaseUrl(host, parse).error)
    ensures createRequest(ToolsSent(configuredMode, tools)).Ok? && BaseUrl(host, parse).Ok? ==>
              var response := post(BaseUrl(host, parse).value, createRequest(ToolsSent(configuredMode, tools)).value);
              && (response.Err? ==> r == Err(response.error))
              && (response.Ok? && toMessage(response.value).Err? ==> r == Err(toMessage(response.value).error))
              && (response.Ok? && toMessage(response.value).Ok? ==> r.Ok?)
    ensures r.Ok? ==>
              && createRequest(ToolsSent(configuredMode, tools)).Ok?
              && BaseUrl(host, parse).Ok?
              && post(BaseUrl(host, parse).value, createRequest(ToolsSent(configuredMode, tools)).value).Ok?
              && var response := post(BaseUrl(host, parse).value, createRequest(ToolsSent(configuredMode, tools)).value).value;
              && toMessage(response) == Ok(r.value.0)
              && r.value.1.model == getModel(response)
              && (Json.Get(response, "usage").None? ==> r.value.1.usage == NoUsage)
              && (Json.Get(response, "usage").Some? ==> r.value.1.usage == getUsage(Json.Get(response, "usage").value))
  {
    var payload :- createRequest(ToolsSent(configuredMode, tools));
    var base :- BaseUrl(host, parse);
    var response :- post(base, payload);
    var message :- toMessage(response);
    Ok((message, ProviderUsage(getModel(response), UsageOrDefault(response, getUsage))))
  }

  /** In chat mode the caller's tools have no influence on the call. */
  lemma ChatModeIgnoresTools<T, M>(host: string, parse: string -> Result<Url, string>,
                                   tools1: seq<T>, tools2: seq<T>,
                                   createRequest: seq<T> -> Result<Json.Value, ProviderError>,
                                   post: (Url, Json.Value) -> Result<Json.Value, ProviderError>,
                                   toMessage: Json.Value -> Result<M, ProviderError>,
                                   getUsage: Json.Value -> Usage,
                                   getModel: Json.Value -> string)
    ensures Complete(host, parse, Some(ChatMode), tools1, createRequest, post, toMessage, getUsage, getModel)
         == Complete(host, parse, Some(ChatMode), tools2, createRequest, post, toMessage, getUsage, getModel)
  {
  }
}

=== FILE: sorting.dfy ===
/** The order `Vec<String>::sort` uses and a sort that realises it. Rust
    compares strings byte-wise in UTF-8, which orders them exactly as
    comparing code points lexicographically does. */
module Sorting {

  /** `a <= b` in lexicographic code-point order. */
  predicate Le(a: string, b: string): (r: bool)
    ensures |a| <= |b| && b[..|a|] == a ==> r
    ensures r && |a| > 0 ==> |b| > 0 && a[0] <= b[0]
    decreases |a|
  {
    |a| == 0 || (|b| > 0 && (a[0] < b[0] || (a[0] == b[0] && Le(a[1..], b[1..]))))
  }

  lemma {:induction false} LeReflexive(a: string)
    ensures Le(a, a)
    decreases |a|
  {
    if |a| > 0 {
      LeReflexive(a[1..]);
    }
  }

  lemma {:induction false} LeTotal(a: string, b: string)
    ensures Le(a, b) || Le(b, a)
    decreases |a|
  {
    if |a| > 0 && |b| > 0 && a[0] == b[0] {
      LeTotal(a[1..], b[1..]);
    }
  }

  lemma {:induction false} LeAntisymmetric(a: string, b: string)
    requires Le(a, b) && Le(b, a)
    ensures a == b
    decreases |a|
  {
    if |a| > 0 {
      LeAntisymmetric(a[1..], b[1..]);
      assert a == [a[0]] + a[1..];
      assert b == [b[0]] + b[1..];
    }
  }

  lemma {:induction false} LeTransitive(a: string, b: string, c: string)
    requires Le(a, b) && Le(b, c)
    ensures Le(a, c)
    decreases |a|
  {
    if |a| > 0 && a[0] == b[0] && b[0] == c[0] {
      LeTransitive(a[1..], b[1..], c[1..]);
    }
  }

  predicate Sorted(s: seq<string>) {
    forall i, j :: 0 <= i < j < |s| ==> Le(s[i], s[j])
  }

  /** The head of a sorted sequence is below every element of it. */
  lemma HeadIsLeast(s: seq<string>, y: string)
    requires Sorted(s) && y in s
    ensures Le(s[0], y)
  {
    var k :| 0 <= k < |s| && s[k] == y;
    if k == 0 {
      LeReflexive(y);
    }
  }

  lemma ConsSorted(x: string, s: seq<string>)
    requires Sorted(s)
    requires forall y :: y in s ==> Le(x, y)
    ensures Sorted([x] + s)
  {
  }

  /** Inserts `x` before the first element it is not above. */
  function Insert(x: string, s: seq<string>): (r: seq<string>)
    requires Sorted(s)
    ensures Sorted(r)
    ensures multiset(r) == multiset(s) + multiset{x}
    decreases |s|
  {
    if |s| == 0 then
      [x]
    else if Le(x, s[0]) then
      forall y | y in s
        ensures Le(x, y)
      {
        HeadIsLeast(s, y);
        LeTransitive(x, s[0], y);
      }
      ConsSorted(x, s);
      [x] + s
    else
      var rest := Insert(x, s[1..]);
      forall y | y in rest
        ensures Le(s[0], y)
      {
        assert y in multiset(rest);
        if y == x {
          LeTotal(x, s[0]);
        } else {
          assert y in s[1..];
          HeadIsLeast(s, y);
        }
      }
      ConsSorted(s[0], rest);
      assert s == [s[0]] + s[1..];
      [s[0]] + rest
  }

  /** `sort`: a sorted permutation of `s`. */
  function Sort(s: seq<string>): (r: seq<string>)
    ensures Sorted(r)
    ensures multiset(r) == multiset(s)
  {
    if |s| == 0 then
      []
    else
      assert s == [s[0]] + s[1..];
      Insert(s[0], Sort(s[1..]))
  }

  /** Two sorted sequences holding the same elements are equal, so the output
      of any sort of `s` is `Sort(s)`: stability plays no part for strings. */
  lemma {:induction false} SortedUnique(a: seq<string>, b: seq<string>)
    requires Sorted(a) && Sorted(b)
    requires multiset(a) == multiset(b)
    ensures a == b
    decreases |a|
  {
    assert |a| == |multiset(a)| == |multiset(b)| == |b|;
    if |a| > 0 {
      assert a[0] in multiset(b);
      assert b[0] in multiset(a);
      HeadIsLeast(b, a[0]);
      HeadIsLeast(a, b[0]);
      LeAntisymmetric(a[0], b[0]);
      assert a == [a[0]] + a[1..];
      assert b == [b[0]] + b[1..];
      assert multiset(a[1..]) == multiset(a) - multiset{a[0]};
      assert multiset(b[1..]) == multiset(b) - multiset{b[0]};
      SortedUnique(a[1..], b[1..]);
    }
  }
}

=== FILE: strings.dfy ===
/** The string operations the providers and the tracker rely on: prefix and
    suffix tests, lower-casing, substring search and decimal rendering of
    integers. */
module Strings {

  predicate StartsWith(s: string, prefix: string) {
    |prefix| <= |s| && s[..|prefix|] == prefix
  }

  predicate EndsWith(s: string, suffix: string) {
    |suffix| <= |s| && s[|s| - |suffix|..] == suffix
  }

  /** Lower-casing of one character, restricted to the ASCII letters. */
  function LowerChar(c: char): char {
    if 'A' <= c <= 'Z' then (c as int - 'A' as int + 'a' as int) as char else c
  }

  /** `str::to_lowercase`, restricted to the ASCII letters. */
  function Lower(s: string): (r: string)
    ensures |r| == |s|
    ensures forall i :: 0 <= i < |s| ==> r[i] == LowerChar(s[i])
  {
    seq(|s|, i requires 0 <= i < |s| => LowerChar(s[i]))
  }

  /** `sub` occurs in `s` starting at index `i`. */
  ghost predicate OccursAt(s: string, sub: string, i: int) {
    0 <= i && i + |sub| <= |s| && s[i..i + |sub|] == sub
  }

  /** The reference meaning of "s contains sub". */
  ghost predicate Occurs(s: string, sub: string) {
    exists i :: OccursAt(s, sub, i)
  }

  /** When `sub` is not at the head of `s`, it occurs in `s` iff it occurs in `s`'s tail. */
  lemma OccursInTail(s: string, sub: string)
    requires |s| > 0 && !OccursAt(s, sub, 0)
    ensures Occurs(s, sub) <==> Occurs(s[1..], sub)
  {
    if Occurs(s, sub) {
      var i :| OccursAt(s, sub, i);
      assert s[1..][i - 1..i - 1 + |sub|] == s[i..i + |sub|];
      assert OccursAt(s[1..], sub, i - 1);
    }
    if Occurs(s[1..], sub) {
      var i :| OccursAt(s[1..], sub, i);
      assert s[i + 1..i + 1 + |sub|] == s[1..][i..i + |sub|];
      assert OccursAt(s, sub, i + 1);
    }
  }

  /** A string cannot contain `sub` when one of `sub`'s characters is missing from it. */
  lemma MissingCharRulesOut(s: string, sub: string, k: nat)
    requires k < |sub| && sub[k] !in s
    ensures !Occurs(s, sub)
  {
  }

  /** `str::contains`, as a left-to-right scan. */
  function Contains(s: string, sub: string): (r: bool)
    ensures r <==> Occurs(s, sub)
    decreases |s|
  {
    if StartsWith(s, sub) then
      assert OccursAt(s, sub, 0);
      true
    else if |s| == 0 then
      assert !OccursAt(s, sub, 0);
      false
    else
      assert !OccursAt(s, sub, 0);
      OccursInTail(s, sub);
      Contains(s[1..], sub)
  }

  predicate IsDigit(c: char) {
    '0' <= c <= '9'
  }

  function DigitChar(d: nat): (c: char)
    requires d < 10
    ensures IsDigit(c)
  {
    (d + '0' as int) as char
  }

  /** The `Display` rendering of a natural number: its decimal digits, most significant first. */
  function NatToString(n: nat): (r: string)
    ensures |r| > 0
    ensures forall i :: 0 <= i < |r| ==> IsDigit(r[i])
    decreases n
  {
    if n < 10 then [DigitChar(n)] else NatToString(n / 10) + [DigitChar(n % 10)]
  }

  /** The number a string of decimal digits denotes. */
  function DigitsValue(s: string): nat
    requires forall i :: 0 <= i < |s| ==> IsDigit(s[i])
  {
    if |s| == 0 then 0
    else
      assert IsDigit(s[|s| - 1]);
      10 * DigitsValue(s[..|s| - 1]) + (s[|s| - 1] as int - '0' as int)
  }

  /** Reading back the digits of `NatToString(n)` gives `n`. */
  lemma {:induction false} NatToStringRoundTrip(n: nat)
    ensures DigitsValue(NatToString(n)) == n
    decreases n
  {
    if n >= 10 {
      var r := NatToString(n);
      assert r[..|r| - 1] == NatToString(n / 10);
      NatToStringRoundTrip(n / 10);
    }
  }

  /** The `Display` rendering of a signed integer. */
  function IntToString(i: int): (r: string)
    ensures |r| > 0
    ensures IsDigit(r[0]) || r[0] == '-'
    ensures i >= 0 ==> r == NatToString(i)
    ensures i < 0 ==> r == "-" + NatToString(-i)
  {
    if i < 0 then "-" + NatToString(-i) else NatToString(i)
  }
}

=== FILE: token_tracker.dfy ===
/** The per-session token-usage tracker: cumulative usage, an optional context
    limit and two one-shot warnings, at 80% and at 90% of the limit. Each
    operation is a function from the tracker before to the tracker after. */
module TokenTracker {
  import opened Wrappers
  import opened Base
  import opened Strings

  datatype Tracker = Tracker(usage: Usage, contextLimit: Option<nat>, warned80: bool, warned90: bool)

  function New(): (t: Tracker)
    ensures t.usage == NoUsage && t.contextLimit.None?
    ensures !t.warned80 && !t.warned90
  {
    Tracker(NoUsage, None, false, false)
  }

  /** `update_usage`: adds the report to the cumulative usage and touches nothing else. */
  function UpdateUsage(t: Tracker, report: ProviderUsage): (r: Tracker)
    ensures r.usage == Add(t.usage, report.usage)
    ensures r.contextLimit == t.contextLimit
    ensures r.warned80 == t.warned80 && r.warned90 == t.warned90
  {
    t.(usage := Add(t.usage, report.usage))
  }

  /** `set_context_limit`: records the limit and touches nothing else. */
  function SetContextLimit(t: Tracker, limit: nat): (r: Tracker)
    ensures r.contextLimit == Some(limit)
    ensures r.usage == t.usage
    ensures r.warned80 == t.warned80 && r.warned90 == t.warned90
  {
    t.(contextLimit := Some(limit))
  }

  /** The value of `(used as f64 / limit as f64) * 100.0`, kept exact. A positive
      limit gives the ratio `100 * used / limit`; a zero limit gives what IEEE 754
      division by zero gives. */
  datatype Percentage = Ratio(used: int, limit: nat) | PosInfinity | NegInfinity | NaN

  function Percent(used: int, limit: nat): (p: Percentage)
    ensures p.Ratio? <==> limit > 0
    ensures p.Ratio? ==> p.used == used && p.limit == limit
    ensures p == PosInfinity <==> limit == 0 && used > 0
    ensures p == NegInfinity <==> limit == 0 && used < 0
    ensures p == NaN <==> limit == 0 && used == 0
  {
    if limit > 0 then Ratio(used, limit)
    else if used > 0 then PosInfinity
    else if used < 0 then NegInfinity
    else NaN
  }

  /** `percentage >= threshold`; every comparison with NaN is false. */
  predicate AtLeast(p: Percentage, threshold: nat) {
    match p
    case Ratio(used, limit) => 100 * used >= threshold * limit
    case PosInfinity => true
    case NegInfinity => false
    case NaN => false
  }

  /** Usage has reached `pct` percent of the limit, both being known; stated on the
      counts themselves, without going through `Percentage`. */
  ghost predicate Reached(t: Tracker, pct: nat) {
    && t.usage.totalTokens.Some?
    && t.contextLimit.Some?
    && var used, limit := t.usage.totalTokens.value, t.contextLimit.value;
       if limit > 0 then 100 * used >= pct * limit else used > 0
  }

  lemma ReachedMonotone(t: Tracker, lo: nat, hi: nat)
    requires lo <= hi && Reached(t, hi)
    ensures Reached(t, lo)
  {
  }

  const I32Min: int := -0x8000_0000
  const I32Max: int := 0x7FFF_FFFF

  /** A quotient reaches `k` exactly when the dividend reaches `k` times the divisor. */
  lemma QuotientAtLeast(n: nat, d: nat, k: nat)
    requires d > 0
    ensures n / d >= k <==> n >= k * d
  {
    var q := n / d;
    assert q * d <= n < (q + 1) * d;
    if q >= k {
      assert q * d >= k * d by { MultiplyMonotone(k, q, d); }
    } else {
      assert (q + 1) * d <= k * d by { MultiplyMonotone(q + 1, k, d); }
    }
  }

  /** `n / d` capped at `k`. */
  function SaturatedQuotient(n: nat, d: nat, k: nat): (q: nat)
    requires d > 0
    ensures q <= k
    ensures q < k ==> q * d <= n < (q + 1) * d
    ensures q == k <==> n >= k * d
  {
    QuotientAtLeast(n, d, k);
    if n / d > k then k else n / d
  }

  lemma MultiplyMonotone(a: nat, b: nat, d: nat)
    requires a <= b
    ensures a * d <= b * d
  {
  }

  /** `percentage as i32`: truncation toward zero, saturating at the bounds of
      `i32`; NaN becomes 0. */
  function TruncatedPercent(p: Percentage): (r: int)
    ensures I32Min <= r <= I32Max
    ensures p.Ratio? && p.limit > 0 && p.used >= 0 && r < I32Max ==>
              r * p.limit <= 100 * p.used < (r + 1) * p.limit
    ensures p.Ratio? && p.limit > 0 && p.used < 0 && r > I32Min ==>
              (r - 1) * p.limit < 100 * p.used <= r * p.limit
    ensures p.Ratio? && p.limit > 0 ==> (r == I32Max <==> 100 * p.used >= I32Max * p.limit)
    ensures p.Ratio? && p.limit > 0 ==> (r == I32Min <==> 100 * p.used <= I32Min * p.limit)
    ensures p == PosInfinity ==> r == I32Max
    ensures p == NegInfinity ==> r == I32Min
    ensures p == NaN ==> r == 0
  {
    match p
    case Ratio(used, limit) =>
      if limit == 0 then 0
      else if used >= 0 then SaturatedQuotient(100 * used, limit, I32Max)
      else 0 - SaturatedQuotient(100 * -used, limit, -I32Min) as int
    case PosInfinity => I32Max
    case NegInfinity => I32Min
    case NaN => 0
  }

  /** `usage_percentage`: known iff both the used tokens and the limit are. */
  function UsagePercentage(t: Tracker): (r: Option<Percentage>)
    ensures r.Some? <==> t.usage.totalTokens.Some? && t.contextLimit.Some?
    ensures r.Some? ==> r.value == Percent(t.usage.totalTokens.value, t.contextLimit.value)
  {
    match (t.usage.totalTokens, t.contextLimit)
    case (Some(used), Some(limit)) => Some(Percent(used, limit))
    case _ => None
  }

  /** `token_counts`: `(used, limit)`, known iff both are. */
  function TokenCounts(t: Tracker): (r: Option<(int, nat)>)
    ensures r.Some? <==> t.usage.totalTokens.Some? && t.contextLimit.Some?
    ensures r.Some? ==> r.value.0 == t.usage.totalTokens.value && r.value.1 == t.contextLimit.value
  {
    match (t.usage.totalTokens, t.contextLimit)
    case (Some(used), Some(limit)) => Some((used, limit))
    case _ => None
  }

  /** The percentage comparison the tracker makes agrees with `Reached`. */
  lemma AtLeastMeansReached(t: Tracker, pct: nat)
    requires UsagePercentage(t).Some?
    ensures AtLeast(UsagePercentage(t).value, pct) <==> Reached(t, pct)
  {
  }

  /** The two warnings `check_warning` can return, with what their text shows. */
  datatype Warning =
    | ApproachingLimit(used: int, limit: nat, percent: int)
    | ContextUsage(percent: int, used: int, limit: nat)

  const ApproachingPrefix := "WARNING: Approaching context limit! Used "
  const ContextPrefix := "Context usage at "

  /** The text of a warning: the 90% one opens with the "WARNING" prefix and
      closes on the percentage, the 80% one opens on the percentage and closes
      on the token counts. */
  function Message(w: Warning): (r: string)
    ensures w.ApproachingLimit? ==> StartsWith(r, ApproachingPrefix) && EndsWith(r, "%)")
    ensures w.ContextUsage? ==> StartsWith(r, ContextPrefix + IntToString(w.percent) + "% (") && EndsWith(r, " tokens)")
    ensures w.ApproachingLimit? ==>
              r == ApproachingPrefix + IntToString(w.used) + " of " + NatToString(w.limit)
                   + " tokens (" + IntToString(w.percent) + "%)"
    ensures w.ContextUsage? ==>
              r == ContextPrefix + IntToString(w.percent) + "% (" + IntToString(w.used) + " of " + NatToString(w.limit)
                   + " tokens)"
  {
    match w
    case ApproachingLimit(used, limit, percent) =>
      ApproachingPrefix + IntToString(used) + " of " + NatToString(limit)
      + " tokens (" + IntToString(percent) + "%)"
    case ContextUsage(percent, used, limit) =>
      ContextPrefix + IntToString(percent) + "% (" + IntToString(used) + " of " + NatToString(limit)
      + " tokens)"
  }

  /** The two texts cannot be confused: only the 90% one starts with "WARNING". */
  lemma MessagesDistinguishable(w: Warning)
    ensures StartsWith(Message(w), "WARNING") <==> w.ApproachingLimit?
  {
    var m := Message(w);
    if w.ContextUsage? {
      assert m[0] == ContextPrefix[0] == 'C';
    } else {
      assert m[..|ApproachingPrefix|] == ApproachingPrefix;
      assert forall k :: 0 <= k < 7 ==> m[k] == ApproachingPrefix[k] == "WARNING"[k];
      assert m[..7] == "WARNING";
    }
  }

  /** `check_warning`. The 90% test comes first. A warning fires when its
      threshold is reached and its own flag is unset, and sets only that flag;
      otherwise nothing changes. */
  function CheckWarning(t: Tracker): (r: (Tracker, Option<Warning>))
    ensures r.0.usage == t.usage && r.0.contextLimit == t.contextLimit
    ensures (r.1.Some? && r.1.value.ApproachingLimit?) <==> Reached(t, 90) && !t.warned90
    ensures (r.1.Some? && r.1.value.ContextUsage?) <==>
              !(Reached(t, 90) && !t.warned90) && Reached(t, 80) && !t.warned80
    ensures r.1.Some? && r.1.value.ApproachingLimit? ==> r.0 == t.(warned90 := true)
    ensures r.1.Some? && r.1.value.ContextUsage? ==> r.0 == t.(warned80 := true)
    ensures r.1.None? ==> r.0 == t
    ensures r.1.Some? ==>
              && r.1.value.used == t.usage.totalTokens.value
              && r.1.value.limit == t.contextLimit.value
              && r.1.value.percent == TruncatedPercent(Percent(r.1.value.used, r.1.value.limit))
  {
    match UsagePercentage(t)
    case None => (t, None)
    case Some(p) =>
      if AtLeast(p, 90) && !t.warned90 then
        var t' := t.(warned90 := true);
        match TokenCounts(t')
        case Some((used, limit)) => (t', Some(ApproachingLimit(used, limit, TruncatedPercent(p))))
        case None => assert false; (t', None)
      else if AtLeast(p, 80) && !t.warned80 then
        var t' := t.(warned80 := true);
        match TokenCounts(t')
        case Some((used, limit)) => (t', Some(ContextUsage(TruncatedPercent(p), used, limit)))
        case None => assert false; (t', None)
      else
        (t, None)
  }

  const UsagePrefix := "Token usage: "
  const NoLimitSuffix := " (no limit available)"
  const Unavailable := "Token usage: unavailable"

  /** The rendering when both the used tokens and the limit are known. */
  function WithLimit(used: int, limit: nat, percent: int): (r: string)
    ensures r == UsagePrefix + IntToString(used) + " / " + NatToString(limit) + " (" + IntToString(percent) + "%)"
    ensures StartsWith(r, UsagePrefix) && |r| > |UsagePrefix| && r[|UsagePrefix|] == IntToString(used)[0]
    ensures EndsWith(r, "%)") && !EndsWith(r, NoLimitSuffix)
  {
    var r := UsagePrefix + IntToString(used) + " / " + NatToString(limit) + " (" + IntToString(percent) + "%)";
    assert r[|r| - 2..] == "%)";
    assert r[|r| - 2] != NoLimitSuffix[|NoLimitSuffix| - 2];
    r
  }

  /** The rendering when only the used tokens are known. */
  function WithoutLimit(used: int): (r: string)
    ensures r == UsagePrefix + IntToString(used) + NoLimitSuffix
    ensures StartsWith(r, UsagePrefix) && |r| > |UsagePrefix| && r[|UsagePrefix|] == IntToString(used)[0]
    ensures EndsWith(r, NoLimitSuffix) && !EndsWith(r, "%)")
  {
    var r := UsagePrefix + IntToString(used) + NoLimitSuffix;
    assert r[|r| - |NoLimitSuffix|..] == NoLimitSuffix;
    assert r[|r| - 2] != '%';
    r
  }

  lemma UnavailableShape()
    ensures StartsWith(Unavailable, UsagePrefix) && Unavailable[|UsagePrefix|] == 'u'
    ensures !EndsWith(Unavailable, NoLimitSuffix) && !EndsWith(Unavailable, "%)")
  {
  }

  /** `status`: one of three renderings, told apart by their shape. */
  function Status(t: Tracker): (r: string)
    ensures StartsWith(r, UsagePrefix)
    ensures r == Unavailable <==> t.usage.totalTokens.None?
    ensures EndsWith(r, NoLimitSuffix) <==> t.usage.totalTokens.Some? && t.contextLimit.None?
    ensures EndsWith(r, "%)") <==> TokenCounts(t).Some?
    ensures TokenCounts(t).Some? ==>
              r == WithLimit(t.usage.totalTokens.value, t.contextLimit.value,
                             TruncatedPercent(Percent(t.usage.totalTokens.value, t.contextLimit.value)))
    ensures t.usage.totalTokens.Some? && t.contextLimit.None? ==> r == WithoutLimit(t.usage.totalTokens.value)
  {
    UnavailableShape();
    match TokenCounts(t)
    case Some((used, limit)) =>
      var percentage := UsagePercentage(t).GetOr(NaN);
      WithLimit(used, limit, TruncatedPercent(percentage))
    case None =>
      match t.usage.totalTokens
      case Some(used) => WithoutLimit(used)
      case None => Unavailable
  }

  /** `reset`: forgets usage and both warnings, keeps the limit. */
  function Reset(t: Tracker): (r: Tracker)
    ensures r.usage == NoUsage && !r.warned80 && !r.warned90
    ensures r.contextLimit == t.contextLimit
  {
    t.(usage := NoUsage, warned80 := false, warned90 := false)
  }

  /** A reset tracker is a fresh one that was given the old limit, if any. */
  lemma ResetIsNewWithLimit(t: Tracker)
    ensures Reset(t) == (if t.contextLimit.Some? then SetContextLimit(New(), t.contextLimit.value) else New())
  {
  }

  /** The operations a session performs on its tracker. */
  datatype Op = Update(report: ProviderUsage) | SetLimit(limit: nat) | Check | ResetTracker

  function Step(t: Tracker, op: Op): (Tracker, Option<Warning>) {
    match op
    case Update(report) => (UpdateUsage(t, report), None)
    case SetLimit(limit) => (SetContextLimit(t, limit), None)
    case Check => CheckWarning(t)
    case ResetTracker => (Reset(t), None)
  }

  /** Performs `ops` in order; returns the final tracker and the warnings fired, in order. */
  function Run(t: Tracker, ops: seq<Op>): (Tracker, seq<Warning>)
    decreases |ops|
  {
    if |ops| == 0 then
      (t, [])
    else
      var (t1, w) := Step(t, ops[0]);
      var (t2, ws) := Run(t1, ops[1..]);
      (t2, (if w.Some? then [w.value] else []) + ws)
  }

  predicate NoReset(ops: seq<Op>) {
    forall i :: 0 <= i < |ops| ==> !ops[i].ResetTracker?
  }

  function CountApproaching(ws: seq<Warning>): nat {
    if |ws| == 0 then 0 else (if ws[0].ApproachingLimit? then 1 else 0) + CountApproaching(ws[1..])
  }

  function CountContextUsage(ws: seq<Warning>): nat {
    if |ws| == 0 then 0 else (if ws[0].ContextUsage? then 1 else 0) + CountContextUsage(ws[1..])
  }

  lemma CountsOfConcat(a: seq<Warning>, b: seq<Warning>)
    ensures CountApproaching(a + b) == CountApproaching(a) + CountApproaching(b)
    ensures CountContextUsage(a + b) == CountContextUsage(a) + CountContextUsage(b)
  {
    if |a| > 0 {
      assert (a + b)[0] == a[0];
      assert (a + b)[1..] == a[1..] + b;
      CountsOfConcat(a[1..], b);
    } else {
      assert a + b == b;
    }
  }

  /** Without a reset, each warning fires at most once, and a flag ends up set
      exactly when it was set already or its warning fired. So flags only ever
      go from unset to set. */
  lemma {:induction false} EachWarningFiresOnce(t: Tracker, ops: seq<Op>)
    requires NoReset(ops)
    ensures CountApproaching(Run(t, ops).1) <= (if t.warned90 then 0 else 1)
    ensures CountContextUsage(Run(t, ops).1) <= (if t.warned80 then 0 else 1)
    ensures Run(t, ops).0.warned90 <==> t.warned90 || CountApproaching(Run(t, ops).1) > 0
    ensures Run(t, ops).0.warned80 <==> t.warned80 || CountContextUsage(Run(t, ops).1) > 0
    decreases |ops|
  {
    if |ops| > 0 {
      var (t1, w) := Step(t, ops[0]);
      assert NoReset(ops[1..]) by {
        forall i | 0 <= i < |ops[1..]|
          ensures !ops[1..][i].ResetTracker?
        {
          assert ops[1..][i] == ops[i + 1];
        }
      }
      EachWarningFiresOnce(t1, ops[1..]);
      var head: seq<Warning> := if w.Some? then [w.value] else [];
      CountsOfConcat(head, Run(t1, ops[1..]).1);
      assert Run(t, ops).1 == head + Run(t1, ops[1..]).1;
      assert !ops[0].ResetTracker?;
    }
  }

  /** The flags of a tracker never go from set to unset except by `reset`. */
  lemma FlagsNeverCleared(t: Tracker, ops: seq<Op>)
    requires NoReset(ops)
    ensures t.warned80 ==> Run(t, ops).0.warned80
    ensures t.warned90 ==> Run(t, ops).0.warned90
  {
    EachWarningFiresOnce(t, ops);
  }

  /** With neither flag set, usage that jumps straight past 90% yields the 90%
      warning on the first check and, since that branch leaves the 80% flag
      unset, the 80% warning on the second; a third check at the same usage
      yields nothing. */
  lemma JumpPastNinety(t: Tracker)
    requires Reached(t, 90) && !t.warned80 && !t.warned90
    ensures CheckWarning(t).1.Some? && CheckWarning(t).1.value.ApproachingLimit?
    ensures CheckWarning(CheckWarning(t).0).1.Some? && CheckWarning(CheckWarning(t).0).1.value.ContextUsage?
    ensures CheckWarning(CheckWarning(CheckWarning(t).0).0).1.None?
  {
    ReachedMonotone(t, 80, 90);
  }

  /** Reports fed one by one into a tracker accumulate field by field: a count
      stays unknown only if every report left it unknown. */
  function UpdateAll(t: Tracker, reports: seq<ProviderUsage>): Tracker
    decreases |reports|
  {
    if |reports| == 0 then t
    else UpdateUsage(UpdateAll(t, reports[..|reports| - 1]), reports[|reports| - 1])
  }

  function Usages(reports: seq<ProviderUsage>): (us: seq<Usage>)
    ensures |us| == |reports|
    ensures forall i :: 0 <= i < |reports| ==> us[i] == reports[i].usage
  {
    seq(|reports|, i requires 0 <= i < |reports| => reports[i].usage)
  }

  lemma {:induction false} UpdatesAccumulate(reports: seq<ProviderUsage>)
    ensures UpdateAll(New(), reports).usage == Total(Usages(reports))
    ensures UpdateAll(New(), reports).contextLimit.None?
    ensures !UpdateAll(New(), reports).warned80 && !UpdateAll(New(), reports).warned90
    decreases |reports|
  {
    if |reports| > 0 {
      var init := reports[..|reports| - 1];
      UpdatesAccumulate(init);
      assert Usages(reports)[..|reports| - 1] == Usages(init);
    }
  }

  /** A worked session: with a limit of 1000, usage 850 gives the 80% warning
      once; usage 950 then gives the 90% warning. */
  lemma WorkedSession()
    ensures var t0 := SetContextLimit(New(), 1000);
            var t1 := UpdateUsage(t0, ProviderUsage("m", Usage(None, None, Some(850))));
            var (t2, w1) := CheckWarning(t1);
            var (t3, w2) := CheckWarning(t2);
            var t4 := UpdateUsage(t3, ProviderUsage("m", Usage(None, None, Some(100))));
            var (t5, w3) := CheckWarning(t4);
            && w1 == Some(ContextUsage(85, 850, 1000))
            && w2.None?
            && w3 == Some(ApproachingLimit(950, 1000, 95))
            && t5.warned80 && t5.warned90
  {
  }
}

=== FILE: wrappers.dfy ===
/** The two failure-carrying shapes the providers use: Rust's `Option` and `Result`. */
module Wrappers {

  datatype Option<+T> = None | Some(value: T) {

    /** `unwrap_or`: the carried value, or `default` when there is none. */
    function GetOr(default: T): T {
      match this
      case Some(v) => v
      case None => default
    }
  }

  datatype Result<+T, +E> = Ok(value: T) | Err(error: E) {

    predicate IsFailure() {
      Err?
    }

    function PropagateFailure<U>(): Result<U, E>
      requires Err?
    {
      Err(error)
    }

    function Extract(): T
      requires Ok?
    {
      value
    }

    /** `map_err` */
    function MapErr<F>(f: E -> F): Result<T, F> {
      match this
      case Ok(v) => Ok(v)
      case Err(e) => Err(f(e))
    }
  }
}
